=== FILE: README.md ===
# Media-buying campaign calculator: a Dafny model of its metrics core

The repository is a small React tool for advertising campaigns. A form holds
five raw counters as typed text (reach, impressions, clicks, conversions,
cost). From them the tool derives four metrics: click-through rate (ctr),
cost per click (cpc), cost per thousand impressions (cpm) and return on ad
spend (roas). It then shows advice, colours each metric good, bad or neutral,
and can keep one snapshot of the metrics for comparison. The same logic
appears twice, in `src/MediaBuyingTool.jsx` and in `src/App.jsx`. Their metric
logic differs in one place: App converts field text with the unary `+`
alone, while MediaBuyingTool writes `+text || 0`.

This project models that logic with immutable datatypes and pure functions:

- `JsNumber` models a JavaScript number as a finite value (an exact real) or
  NaN. It covers truthiness, `|| 0`, guarded division, the comparisons, and
  the rounding step of `toFixed(2)`.
- `Decimal` covers digit strings and the unary `+` on text: trimming, an
  optional sign, and `digits[.digits]` or `.digits`.
- `Metric` is the text of one metric. It is the sentinel `"0"`, a
  `toFixed(2)` result kept as sign and hundredths, or `"NaN"`. `Render` gives
  the exact string and `Reading` the number it stands for. A lemma proves
  that converting the rendered string back with the unary `+` gives the
  reading. The source applies `parseFloat` instead; on the strings `Render`
  produces the two agree in JavaScript, a fact the model relies on without
  proving it. That lets the advice rules and the classifier compare
  readings.
- `CampaignData` holds the form and `handleChange`.
- `Calculator` holds the four guarded formulas and both versions of
  `calcInsights`.
- `Advice` holds `getRecommendation`. The messages are enum tags.
- `Classifier` holds `performanceColor` and the four places it is used.
- `Comparison` models a session as a state machine over field edits, "save
  for comparison" and "clear comparison".
- `AppFinding` holds the counterexample for App's missing `|| 0`, and the
  corrected behaviour.

Every operation is a pure function of its arguments. Computing the metrics
twice from the same form therefore gives the same result.

Points where the code is easy to misread:

- The zero-guards test JavaScript truthiness, not `> 0`. A negative divisor
  passes a guard; 0 and NaN fail it.
- The guard for roas is `cost && conversions`, so both must be truthy.
- App has no `|| 0`. Its metrics can therefore be `"NaN"` (see Findings).
- A guard that fires produces the unrounded string `"0"`. A computed zero
  produces `"0.00"`, which the classifier does not treat as neutral.

## Model

| member | source | states |
|---|---|---|
| `CampaignData.HandleChange` | src/MediaBuyingTool.jsx:33-35 | The named field holds the new text and every other field keeps its text. App.jsx:17-19 is the same code. |
| `CampaignData.HandleChangeLastWriteWins` | src/MediaBuyingTool.jsx:34 | Retyping a field's own text changes nothing. Of two edits to one field, only the later one remains. |
| `CampaignData.HandleChangeCommutes` | src/App.jsx:17-19 | Edits to two different fields give the same form in either order, because each edit replaces only its own field. |
| `Calculator.Coerce` | src/MediaBuyingTool.jsx:39-44 | `+text` with the fallback to 0 is always a finite number. It equals the text's numeric value, or 0 when the text is not a numeral. |
| `Decimal.ToNumber` | src/App.jsx:24-27 | The unary `+` on field text: text that is empty after trimming JavaScript white space converts to 0, not NaN. The lemmas in the rows below state its other cases: padding, the sign, and every shape of unsigned text. |
| `Decimal.TrimStartRemovesLeadingSpace` | src/App.jsx:24-27 | Trimming the front removes exactly the leading white space: what remains is a suffix, every removed character is white space, and the remainder does not start with white space. |
| `Decimal.TrimEndRemovesTrailingSpace` | src/App.jsx:24-27 | Trimming the end removes exactly the trailing white space, in the mirror sense. |
| `Decimal.PaddingIgnored` | src/App.jsx:24-27 | White space before and after a numeral does not change its value, so " 12 " converts like "12". |
| `Decimal.SignRead` | src/App.jsx:24-27 | A leading `+` is dropped and a leading `-` negates the unsigned value that follows. A sign with nothing after it is NaN. |
| `Decimal.UnsignedRead` | src/App.jsx:24-27 | Text that starts with a digit or a point, and does not end in white space, is read as an unsigned numeral. |
| `Decimal.ParseWhole` | src/App.jsx:24-27 | A run of digits alone converts to its value; nothing at all is NaN. |
| `Decimal.ParseFraction` | src/App.jsx:24-27 | Digits, a point and digits convert to the whole part plus the fractional digits shifted right, so "2.5", ".5" and "5." are numbers; the lone point is NaN. |
| `Decimal.ShiftDividesByPow10` | src/App.jsx:24-27 | Shifting by k fractional places divides by the k-th power of ten. |
| `Decimal.ParseJunkAfterPoint` | src/App.jsx:24-27 | Anything other than digits after the point makes the text NaN, as in "1.2.3". |
| `Decimal.ParseJunkAfterDigits` | src/App.jsx:24-27 | A character other than a digit or a point after the leading digits makes the text NaN, as in "12abc". |
| `Decimal.TypedExamples` | src/MediaBuyingTool.jsx:40-43 | "-5" converts to -5, "2.5" to 2.5 and " 12 " to 12. "12abc" and "1.2.3" are NaN. |
| `Decimal.NonNumeralStartIsNaN` | src/App.jsx:24-27 | Text whose first character after the white space is not a digit, a sign or a point converts to NaN. |
| `Decimal.BlankTextIsZero` | src/App.jsx:24-27 | Empty or all-white-space text converts to 0 through the unary `+`, not to NaN. |
| `Decimal.DigitsToNumber` | src/MediaBuyingTool.jsx:40-43 | Every non-empty unsigned digit string, leading zeros included, converts to exactly the whole number its digits denote. |
| `Decimal.LeadingZerosIgnored` | src/App.jsx:24-27 | "007" converts to 7: leading zeros are not an octal prefix. |
| `Decimal.NatToStringOfDigitsValue` | src/MediaBuyingTool.jsx:46-49 | A digit string without a leading zero is the shortest numeral of its value, so the integer part that `toFixed` writes is determined by the value. |
| `Decimal.NatToStringToNumber` | src/MediaBuyingTool.jsx:40-43 | The shortest numeral of every whole number converts back to that number. |
| `JsNumber.NearestHundredths` | src/MediaBuyingTool.jsx:46-49 | The rounding step of `toFixed(2)`: the result is the whole number of hundredths within half a hundredth of the magnitude, the larger one on a tie. |
| `Metric.ToFixed2` | src/MediaBuyingTool.jsx:46-49 | `toFixed(2)` never gives the sentinel. NaN gives "NaN". A finite value keeps its sign, and its magnitude is rounded to the nearest hundredth. |
| `Metric.ToFixed2Unique` | src/MediaBuyingTool.jsx:46-49 | For a given number, at most one metric satisfies the rounding condition that `ToFixed2` promises. |
| `Metric.ToFixed2Error` | src/MediaBuyingTool.jsx:46-49 | The displayed value of a finite ratio is within 0.005 of the ratio. |
| `Metric.ToFixed2Exact` | src/MediaBuyingTool.jsx:46-49 | A value that is already a whole number of hundredths is kept exactly. |
| `Metric.Render` | src/MediaBuyingTool.jsx:46-49 | The displayed text of a metric. A `toFixed(2)` result has at least four characters, a point third from the end, and two digits after it. It starts with a minus sign exactly when the value is negative. The integer digits between the sign and the point are non-empty and have no leading zero. |
| `Metric.RenderIsZeroText` | src/MediaBuyingTool.jsx:66 | The displayed text is the bare string "0" if and only if the metric is the sentinel. A computed zero shows as "0.00". |
| `Metric.Reading` | src/MediaBuyingTool.jsx:58-67 | The number the advice rules and the classifier compare, standing for `parseFloat` of the displayed text. It is NaN exactly for "NaN", and it is 0 exactly for the sentinel and for a computed zero. App.jsx:43-46 and 53 use it the same way. |
| `Metric.ReadingOfRender` | src/MediaBuyingTool.jsx:58-61 | Converting the displayed text back with the unary `+` gives the rounded value, 0 for the sentinel, and NaN for "NaN". |
| `Calculator.Ctr` | src/MediaBuyingTool.jsx:46 | ctr is the sentinel if and only if impressions is falsy. It is NaN if and only if impressions passes and clicks is NaN. Otherwise it is the two-decimal rendering of clicks / impressions × 100. |
| `Calculator.Cpc` | src/MediaBuyingTool.jsx:47 | cpc is the sentinel if and only if clicks is falsy. Otherwise it is the rendering of cost / clicks, or NaN when cost is NaN. |
| `Calculator.Cpm` | src/MediaBuyingTool.jsx:48 | cpm is the sentinel if and only if impressions is falsy. Otherwise it is the rendering of cost / impressions × 1000, or NaN when cost is NaN. |
| `Calculator.Roas` | src/MediaBuyingTool.jsx:49 | roas is the sentinel unless both cost and conversions are truthy. It is then the rendering of conversions / cost, and it is never NaN. |
| `Calculator.CalcInsights` | src/MediaBuyingTool.jsx:37-52 | No metric is ever NaN. Each guard fires exactly when its counter text reads as zero or is not a numeral. |
| `Calculator.CalcInsightsAsWritten` | src/App.jsx:21-36 | Without the fallback to 0, ctr is NaN exactly when impressions is truthy and the clicks text is not a numeral. cpc is NaN exactly when clicks is truthy and the cost text is not a numeral. cpm is NaN exactly when impressions is truthy and the cost text is not a numeral. roas is never NaN. The sentinel conditions are the same as with the fallback. |
| `Calculator.CalcInsightsValues` | src/MediaBuyingTool.jsx:37-52 | In MediaBuyingTool, wherever a guard passes, the metric is the two-decimal rendering of its ratio of the coerced counters: clicks / impressions × 100, cost / clicks, cost / impressions × 1000, conversions / cost. |
| `Calculator.CalcInsightsAsWrittenValues` | src/App.jsx:21-36 | In App, wherever a guard passes and the dividend is a number, the metric is the two-decimal rendering of the same ratio of the converted counters. |
| `Calculator.BlankFormIsAllSentinel` | src/App.jsx:23-33 | With every field blank, all four metrics are the sentinel in both components. |
| `Calculator.NonNumeralCountsAsZero` | src/MediaBuyingTool.jsx:39-49 | Whatever the other fields hold, a non-numeral impressions field makes ctr and cpm the sentinel. The same holds for clicks and cpc, and for cost or conversions and roas. |
| `Calculator.NegativeImpressionsPassGuard` | src/MediaBuyingTool.jsx:46-48 | Negative impressions pass the guard. ctr and cpm are then computed, and ctr carries a minus sign when clicks is positive. |
| `Calculator.ComponentsAgreeOnNumerals` | src/App.jsx:30-33 | When every field is a numeral or blank, App and MediaBuyingTool compute identical metrics. |
| `Calculator.WorkedExample` | src/MediaBuyingTool.jsx:46-49 | 1000 impressions, 20 clicks, cost 50 and 5 conversions give ctr "2.00", cpc "2.50", cpm "50.00" and roas "0.10". |
| `Advice.GetRecommendation` | src/MediaBuyingTool.jsx:56-63 | The list is never empty. Each advice is present if and only if its rule fires on the rounded reading. The list is in the fixed order CTR, CPC, CPM, ROAS with no repeats. It is the single "all good" message if and only if no rule fires. App.jsx:40-49 is the same code. |
| `Advice.OrderedListsWithSameMessagesAreEqual` | src/App.jsx:40-49 | Two strictly ordered message lists with the same members are equal. So the contract of `GetRecommendation` fixes its result. |
| `Advice.AllGoodIffThresholds` | src/MediaBuyingTool.jsx:58-62 | The result is "all good" alone if and only if ctr ≥ 1, cpc ≤ 1, cpm ≤ 30 and roas ≥ 1. This compares rounded values and reads the sentinel as 0. |
| `Advice.SentinelTriggersAdvice` | src/MediaBuyingTool.jsx:58-61 | A sentinel ctr or roas always brings its advice. A sentinel cpc or cpm never does. |
| `Advice.NoImpressionsNeverAllGood` | src/MediaBuyingTool.jsx:46-62 | A form whose impressions read as zero always gets the CTR advice, and so is never "all good". |
| `Classifier.PerformanceColor` | src/MediaBuyingTool.jsx:65-75 | The colour is neutral if and only if the metric is the sentinel, whatever the threshold or direction. Otherwise it is good if and only if the value is ≥ the threshold (higher is better) or ≤ it (lower is better). "NaN" is always bad. App.jsx:51-56 is the same code. |
| `Classifier.AnalysisShades` | src/MediaBuyingTool.jsx:144-155 | The analysis view's four colours. Each is neutral exactly for the sentinel. Otherwise ctr is good from 1 upwards, cpc up to 1, cpm up to 30 and roas from 1 upwards, and "NaN" is red. App.jsx:103-106 uses the same thresholds. |
| `Classifier.ShadesAgreeWithAdvice` | src/MediaBuyingTool.jsx:144-163 | In MediaBuyingTool, a metric that is not the sentinel is shown red exactly when its rule gives advice. |
| `AppFinding.AsWrittenAllGoodWithNaN` | src/App.jsx:24-33 | Counterexample: App shows ctr "NaN" in red and still gives the single "all good" message. |
| `AppFinding.AsWrittenSilencesCtrAdvice` | src/App.jsx:30-43 | In App, whenever impressions passes its guard and the clicks text is not a numeral, ctr is NaN, shown red, and the CTR advice is missing. |
| `AppFinding.AsWrittenSilencesCostAdvice` | src/App.jsx:31-45 | In App, whenever clicks and impressions pass their guards and the cost text is not a numeral, cpc and cpm are NaN, both shown red, and neither the CPC nor the CPM advice is given. |
| `AppFinding.CorrectedNonNumeralCost` | src/MediaBuyingTool.jsx:41-61 | With the fallback to 0, a non-numeral cost makes cpc and cpm the sentinel or "0.00", never red and never advised on, and brings the ROAS advice. |
| `AppFinding.CorrectedFlagsNonNumeralClicks` | src/MediaBuyingTool.jsx:41-58 | With the fallback to 0, a non-numeral clicks field always brings the CTR advice, so the result is never "all good". |
| `AppFinding.CorrectedFlagsNonNumeralClicksExample` | src/MediaBuyingTool.jsx:41-58 | With the fallback to 0, the counterexample form shows ctr "0.00" and gets the CTR advice. |
| `Comparison.Step` | src/MediaBuyingTool.jsx:100-104 | Save stores the current metrics and overwrites the slot. Clear empties the slot. An edit changes one field and leaves the snapshot alone. |
| `Comparison.EditsKeepSnapshot` | src/MediaBuyingTool.jsx:33-35 | No sequence of edits changes the snapshot. |
| `Comparison.SnapshotIsLastSave` | src/MediaBuyingTool.jsx:100-104 | After any sequence of actions, the last save or clear decides the slot. A final clear leaves it empty. A final save leaves the metrics of the form as it was at that save. |
| `Comparison.FormIsLastEdits` | src/MediaBuyingTool.jsx:12-35 | After any sequence of actions, each field holds the last text typed into it. A field nobody edited keeps its text. |
| `Comparison.InitialStateHasNoSnapshot` | src/MediaBuyingTool.jsx:12-26 | From the initial state, or from any form restored from storage, the comparison slot stays empty through any edits until the first save. Saving the untouched initial form, before a stored form is restored, stores four sentinels. |
| `Comparison.SaveIdempotentClearForgets` | src/MediaBuyingTool.jsx:100-104 | Saving twice equals saving once. A clear after a save leaves the slot empty. |

## Left out

- Rendering, JSX markup, the tab widgets and the input widget are UI plumbing. The model covers only the logic they call.
- Loading and saving the form and campaign type in localStorage (src/MediaBuyingTool.jsx:21-31) is browser I/O. Restored data is not checked by the source either.
- The PDF export (src/MediaBuyingTool.jsx:84-98) and the bar chart (src/MediaBuyingTool.jsx:77-82, 166-176; src/App.jsx:58-63) are calls into external libraries.
- The side-by-side comparison list (src/MediaBuyingTool.jsx:184-194) only displays the snapshot that `Comparison` models.
- The campaign-type selector is descriptive and affects no calculation.
- The Arabic advisory text is not modelled; each message is an enum tag. The two components spell the "all good" message slightly differently.
- Field names other than the five inputs of the form are not modelled. `handleChange` is only wired to those five inputs.
- Comparison.Start: models only the initial state, before a stored form is restored. MediaBuyingTool.jsx:21-26 replaces the form with the one kept in localStorage, so only a first-ever session keeps the blank form; `InitialStateHasNoSnapshot` covers restored forms only for the empty snapshot.
- Metric.Reading: `parseFloat` is not modelled. The model assumes that on the displayed strings, "0", "NaN" and an optional minus sign followed by digits, a point and two digits, `parseFloat` gives the same number as the unary `+`, which `ReadingOfRender` covers.
- JsNumber.Num: numbers are exact reals, not IEEE-754 doubles. Binary rounding of the divisions and the binary halfway cases of `toFixed` are not modelled. Infinity is not modelled either, including huge inputs that overflow. A computed -0 is the same as 0. The "-0.00" that `toFixed` writes for small negative values is kept.
- Metric.ToFixed2: does not model the exponent form that `toFixed` writes for magnitudes of 1e21 and above.
- Decimal.ToNumber: accepts only plain decimal numerals. Exponent notation ("1e3"), the 0x/0o/0b prefixes and "Infinity" give NaN here, but a number in JavaScript.

## Findings

| source | as written | input that shows it | evidently intended | confidence | as-written member | corrected member |
|---|---|---|---|---|---|---|
| src/App.jsx:24-33 | The field text is converted with `+text` alone. Non-numeral clicks text becomes NaN. NaN fails the clicks guard, but ctr divides it by a truthy impressions value. ctr shows "NaN", the CTR rule stays silent, and "all good" can appear. | impressions "1000", clicks "abc", conversions "50", cost "10" give ctr "NaN", cpc "0", cpm "10.00", roas "5.00" and the single "all good" message. | Non-numeral text counts as 0, as src/MediaBuyingTool.jsx:40-43 does with its fallback to 0. ctr is then "0.00" and the CTR advice is given. | medium (the other component adds the fix); not executed | `AppFinding.AsWrittenAllGoodWithNaN` | `AppFinding.CorrectedFlagsNonNumeralClicks` |
| src/App.jsx:26-45 | The same missing fallback on the cost field. Non-numeral cost text becomes NaN and is divided by truthy clicks and impressions. cpc and cpm show "NaN" in red, but NaN is not above 1 or 30, so the CPC and CPM rules stay silent. | any form with truthy clicks and impressions and cost "abc" gives cpc "NaN" and cpm "NaN", both red, with no CPC or CPM advice. | Non-numeral cost counts as 0, as src/MediaBuyingTool.jsx:40-43 does. cpc and cpm are then the sentinel or "0.00", never red, and the ROAS advice is given. | medium (the other component adds the fix); not executed | `AppFinding.AsWrittenSilencesCostAdvice` | `AppFinding.CorrectedNonNumeralCost` |

=== FILE: advice.dfy ===
/** `getRecommendation`: four independent threshold rules over the displayed
    metrics, evaluated in a fixed order, with a single positive message when
    none of them fires. The rules compare `parseFloat` of the displayed text,
    that is the rounded value, and the sentinel "0" reads as 0. */
module Advice {
  import opened JsNumber
  import opened Decimal
  import opened Metric
  import opened CampaignData
  import opened Calculator

  /** One advisory message each; the Arabic text is not modelled. */
  datatype Advice = CtrWeak | CpcHigh | CpmHigh | RoasWeak | AllGood

  /** The position of a rule's message in the list. */
  function Rank(a: Advice): nat {
    match a
    case CtrWeak => 0
    case CpcHigh => 1
    case CpmHigh => 2
    case RoasWeak => 3
    case AllGood => 4
  }

  /* The four rules with their fixed thresholds. */

  predicate CtrRule(m: Insights) {
    Less(Reading(m.ctr), 1.0)
  }

  predicate CpcRule(m: Insights) {
    Greater(Reading(m.cpc), 1.0)
  }

  predicate CpmRule(m: Insights) {
    Greater(Reading(m.cpm), 30.0)
  }

  predicate RoasRule(m: Insights) {
    Less(Reading(m.roas), 1.0)
  }

  function GetRecommendation(m: Insights): (recs: seq<Advice>)
    ensures |recs| > 0
    ensures CtrWeak in recs <==> CtrRule(m)
    ensures CpcHigh in recs <==> CpcRule(m)
    ensures CpmHigh in recs <==> CpmRule(m)
    ensures RoasWeak in recs <==> RoasRule(m)
    ensures AllGood in recs <==> recs == [AllGood]
    ensures recs == [AllGood] <==> !CtrRule(m) && !CpcRule(m) && !CpmRule(m) && !RoasRule(m)
    ensures forall i, j :: 0 <= i < j < |recs| ==> Rank(recs[i]) < Rank(recs[j])
  {
    var recs :=
      (if CtrRule(m) then [CtrWeak] else [])
      + (if CpcRule(m) then [CpcHigh] else [])
      + (if CpmRule(m) then [CpmHigh] else [])
      + (if RoasRule(m) then [RoasWeak] else []);
    if |recs| > 0 then recs else [AllGood]
  }

  /** The membership and ordering clauses of GetRecommendation pin its result
      down: two lists with the same messages, each strictly in rule order,
      are equal. */
  lemma {:induction false} OrderedListsWithSameMessagesAreEqual(a: seq<Advice>, b: seq<Advice>)
    requires forall i, j :: 0 <= i < j < |a| ==> Rank(a[i]) < Rank(a[j])
    requires forall i, j :: 0 <= i < j < |b| ==> Rank(b[i]) < Rank(b[j])
    requires forall x :: x in a <==> x in b
    ensures a == b
    decreases |a| + |b|
  {
    EmptyOnlyMatchesEmpty(a, b);
    if a != [] && b != [] {
      assert a[0] in b;
      assert b[0] in a;
      assert a[0] == b[0] by {
        var i :| 0 <= i < |b| && b[i] == a[0];
        var j :| 0 <= j < |a| && a[j] == b[0];
        assert Rank(b[0]) <= Rank(a[0]) <= Rank(b[0]);
        RankInjective(a[0], b[0]);
      }
      forall x
        ensures x in a[1..] <==> x in b[1..]
      {
        if x in a[1..] {
          var i :| 1 <= i < |a| && a[i] == x;
          assert Rank(x) > Rank(a[0]);
          assert x in a;
          assert x in b;
          var k :| 0 <= k < |b| && b[k] == x;
          assert k != 0;
          assert b[1..][k - 1] == x;
        }
        if x in b[1..] {
          var i :| 1 <= i < |b| && b[i] == x;
          assert Rank(x) > Rank(b[0]);
          assert x in b;
          assert x in a;
          var k :| 0 <= k < |a| && a[k] == x;
          assert k != 0;
          assert a[1..][k - 1] == x;
        }
      }
      OrderedListsWithSameMessagesAreEqual(a[1..], b[1..]);
      assert a == [a[0]] + a[1..];
      assert b == [b[0]] + b[1..];
    }
  }

  lemma EmptyOnlyMatchesEmpty(a: seq<Advice>, b: seq<Advice>)
    requires forall x :: x in a <==> x in b
    ensures a == [] <==> b == []
  {
    if a != [] {
      assert a[0] in b;
    }
    if b != [] {
      assert b[0] in a;
    }
  }

  lemma RankInjective(x: Advice, y: Advice)
    requires Rank(x) == Rank(y)
    ensures x == y
  {
  }

  /** In MediaBuyingTool, where no metric is ever NaN, the positive message
      stands alone exactly when ctr >= 1, cpc <= 1, cpm <= 30 and roas >= 1,
      comparing the rounded values and reading the sentinel as 0. */
  lemma AllGoodIffThresholds(d: Counters)
    ensures var m := CalcInsights(d);
      GetRecommendation(m) == [AllGood] <==>
        Reading(m.ctr).val >= 1.0 && Reading(m.cpc).val <= 1.0 && Reading(m.cpm).val <= 30.0
          && Reading(m.roas).val >= 1.0
  {
  }

  /** When the ctr guard fires (no impressions) the sentinel reads as 0, so
      the CTR advice is always given; likewise the ROAS advice when the roas
      guard fires. This holds for whatever metrics reach the rules. */
  lemma SentinelTriggersAdvice(m: Insights)
    ensures m.ctr.Sentinel? ==> CtrWeak in GetRecommendation(m)
    ensures m.roas.Sentinel? ==> RoasWeak in GetRecommendation(m)
    ensures m.cpc.Sentinel? ==> CpcHigh !in GetRecommendation(m)
    ensures m.cpm.Sentinel? ==> CpmHigh !in GetRecommendation(m)
  {
  }

  /** In particular a form without impressions is never "all good". */
  lemma NoImpressionsNeverAllGood(d: Counters)
    requires !Truthy(ToNumber(d.impressions))
    ensures CtrWeak in GetRecommendation(CalcInsights(d))
    ensures GetRecommendation(CalcInsights(d)) != [AllGood]
  {
  }
}

=== FILE: app_finding.dfy ===
/** App's `calcInsights` converts the field text with the unary `+` alone.
    Text that is not a numeral becomes NaN; NaN fails its own guard but is
    still divided by a different, truthy counter. MediaBuyingTool adds
    `|| 0` and so never shows NaN. */
module AppFinding {
  import opened JsNumber
  import opened Decimal
  import opened Metric
  import opened CampaignData
  import opened Calculator
  import opened Advice
  import opened Classifier

  /** A form with 1000 impressions, "abc" typed as clicks, 50 conversions
      and a cost of 10. */
  const NonNumeralClicks := Counters("", "1000", "abc", "50", "10")

  lemma NonNumeralClicksReadings()
    ensures ToNumber("abc") == NaN
    ensures Coerce("1000") == Finite(1000.0) && ToNumber("1000") == Finite(1000.0)
    ensures Coerce("50") == Finite(50.0) && ToNumber("50") == Finite(50.0)
    ensures Coerce("10") == Finite(10.0) && ToNumber("10") == Finite(10.0)
  {
    NotANumeral();
    ReadsThousand();
    ReadsFifty();
    ReadsTen();
  }

  lemma NotANumeral()
    ensures ToNumber("abc") == NaN
    ensures Coerce("abc") == Finite(0.0)
  {
    LetterFirstIsNaN("abc");
  }

  /** Text that starts with a letter is not a numeral. */
  lemma LetterFirstIsNaN(t: string)
    requires t != [] && 'a' <= t[0] <= 'z' && !IsSpace(t[|t| - 1])
    ensures ToNumber(t) == NaN
  {
    TrimUntouched(t);
    assert DigitRun(t) == 0;
  }

  /** As written, App shows ctr as "NaN%" in red and yet reports the single
      "all good" message: NaN is not below 1, so the CTR rule stays silent,
      although ctr is not at least 1 either. */
  lemma AsWrittenAllGoodWithNaN()
    ensures var m := CalcInsightsAsWritten(NonNumeralClicks);
      && Render(m.ctr) == "NaN"
      && AnalysisShades(m).ctr == Bad
      && GetRecommendation(m) == [AllGood]
      && !AtLeast(Reading(m.ctr), 1.0)
  {
    NonNumeralClicksReadings();
    var m := Formulas(Finite(1000.0), NaN, Finite(10.0), Finite(50.0));
    assert CalcInsightsAsWritten(NonNumeralClicks) == m;
    NearestHundredthsExact(1000);
    NearestHundredthsExact(500);
    assert m == Insights(NotANumber, Sentinel, Fixed(false, 1000), Fixed(false, 500));
  }

  /** The same holds for every such form: when the impressions guard passes
      and the clicks text is not a numeral, App displays ctr as NaN in red
      and never gives the CTR advice. */
  lemma AsWrittenSilencesCtrAdvice(d: Counters)
    requires Truthy(ToNumber(d.impressions)) && ToNumber(d.clicks).NaN?
    ensures var m := CalcInsightsAsWritten(d);
      && m.ctr.NotANumber?
      && AnalysisShades(m).ctr == Bad
      && CtrWeak !in GetRecommendation(m)
  {
  }

  /** The cost field fails the same way: when its text is not a numeral and
      the clicks and impressions guards pass, App displays cpc and cpm as NaN
      in red and never gives the CPC or CPM advice, because NaN is not above
      either threshold. */
  lemma AsWrittenSilencesCostAdvice(d: Counters)
    requires ToNumber(d.cost).NaN?
    requires Truthy(ToNumber(d.clicks)) && Truthy(ToNumber(d.impressions))
    ensures var m := CalcInsightsAsWritten(d);
      && m.cpc.NotANumber? && m.cpm.NotANumber?
      && AnalysisShades(m).cpc == Bad && AnalysisShades(m).cpm == Bad
      && CpcHigh !in GetRecommendation(m)
      && CpmHigh !in GetRecommendation(m)
  {
  }

  /** With `|| 0` a cost that is not a numeral counts as zero: cpc and cpm
      are never NaN, each is the sentinel or a computed zero, neither is
      shown in red nor advised on, and the ROAS advice is given. */
  lemma CorrectedNonNumeralCost(d: Counters)
    requires ToNumber(d.cost).NaN?
    ensures var m := CalcInsights(d);
      && (m.cpc.Sentinel? || m.cpc == Fixed(false, 0))
      && (m.cpm.Sentinel? || m.cpm == Fixed(false, 0))
      && AnalysisShades(m).cpc != Bad && AnalysisShades(m).cpm != Bad
      && CpcHigh !in GetRecommendation(m)
      && CpmHigh !in GetRecommendation(m)
      && RoasWeak in GetRecommendation(m)
  {
    assert Coerce(d.cost) == Finite(0.0);
    var m := CalcInsights(d);
    if !m.cpc.Sentinel? {
      ZeroCostPerClick(Coerce(d.clicks));
    }
    if !m.cpm.Sentinel? {
      ZeroCostPerMille(Coerce(d.impressions));
    }
  }

  lemma ZeroCostPerClick(clicks: Num)
    requires Truthy(clicks)
    ensures Cpc(clicks, Finite(0.0)) == Fixed(false, 0)
  {
    ZeroOver(clicks.val);
    assert Div(Finite(0.0), clicks) == Finite(0.0);
    assert NearestHundredths(0.0) == 0;
  }

  lemma ZeroCostPerMille(impressions: Num)
    requires Truthy(impressions)
    ensures Cpm(impressions, Finite(0.0)) == Fixed(false, 0)
  {
    ZeroOver(impressions.val);
    assert Times(Div(Finite(0.0), impressions), 1000.0) == Finite(0.0);
    assert NearestHundredths(0.0) == 0;
  }

  /** With `|| 0` the same form gets ctr "0.00" and the CTR advice. */
  lemma CorrectedFlagsNonNumeralClicksExample()
    ensures var m := CalcInsights(NonNumeralClicks);
      && Render(m.ctr) == "0.00"
      && CtrWeak in GetRecommendation(m)
  {
    NotANumeral();
    ReadsThousand();
    ZeroClicksCtr(NonNumeralClicks);
    CorrectedFlagsNonNumeralClicks(NonNumeralClicks);
    ZeroRendering();
  }

  lemma ZeroRendering()
    ensures Render(Fixed(false, 0)) == "0.00"
  {
    assert NatToString(0) == "0";
  }

  lemma ZeroClicksCtr(d: Counters)
    requires Truthy(Coerce(d.impressions)) && Coerce(d.clicks) == Finite(0.0)
    ensures CalcInsights(d).ctr == Fixed(false, 0)
  {
    ZeroClicks(Coerce(d.impressions));
  }

  lemma ZeroClicks(impressions: Num)
    requires Truthy(impressions)
    ensures Ctr(impressions, Finite(0.0)) == Fixed(false, 0)
  {
    ZeroOver(impressions.val);
    assert Times(Div(Finite(0.0), impressions), 100.0) == Finite(0.0);
    assert NearestHundredths(0.0) == 0;
  }

  lemma ZeroOver(x: real)
    requires x != 0.0
    ensures 0.0 / x == 0.0
  {
  }

  /** With `|| 0`, text that is not a numeral in the clicks field always
      brings the CTR advice, whatever the other fields hold: the clicks read
      as 0, so ctr is the sentinel or a computed zero. */
  lemma CorrectedFlagsNonNumeralClicks(d: Counters)
    requires ToNumber(d.clicks).NaN?
    ensures CtrWeak in GetRecommendation(CalcInsights(d))
    ensures GetRecommendation(CalcInsights(d)) != [AllGood]
  {
    var m := CalcInsights(d);
    if !m.ctr.Sentinel? {
      var i := Coerce(d.impressions);
      assert Coerce(d.clicks).val == 0.0;
      assert 0.0 / i.val * 100.0 == 0.0;
      assert m.ctr.cents == 0;
    }
  }
}

=== FILE: calculator.dfy ===
/** `calcInsights`: the four derived metrics of a campaign form, each either
    the sentinel "0" (its zero-guard fired) or a ratio rounded to two
    decimals. Both components share the guarded formulas; they differ only in
    how the field text becomes a number. */
module Calculator {
  import opened JsNumber
  import opened Decimal
  import opened Metric
  import opened CampaignData

  datatype Insights = Insights(ctr: Metric, cpc: Metric, cpm: Metric, roas: Metric)

  /* The four guarded formulas on already converted counters. A guard tests
     JavaScript truthiness, so any non-zero divisor passes it, a negative one
     included, while 0 and NaN fail it. */

  /** Click-through rate in percent, guarded by the impressions. */
  function Ctr(impressions: Num, clicks: Num): (m: Metric)
    ensures m.Sentinel? <==> !Truthy(impressions)
    ensures m.NotANumber? <==> Truthy(impressions) && clicks.NaN?
    ensures Truthy(impressions) && clicks.Finite? ==>
              IsToFixed2Of(m, clicks.val / impressions.val * 100.0)
  {
    if Truthy(impressions) then ToFixed2(Times(Div(clicks, impressions), 100.0)) else Sentinel
  }

  /** Cost per click, guarded by the clicks. */
  function Cpc(clicks: Num, cost: Num): (m: Metric)
    ensures m.Sentinel? <==> !Truthy(clicks)
    ensures m.NotANumber? <==> Truthy(clicks) && cost.NaN?
    ensures Truthy(clicks) && cost.Finite? ==> IsToFixed2Of(m, cost.val / clicks.val)
  {
    if Truthy(clicks) then ToFixed2(Div(cost, clicks)) else Sentinel
  }

  /** Cost per thousand impressions, guarded by the impressions. */
  function Cpm(impressions: Num, cost: Num): (m: Metric)
    ensures m.Sentinel? <==> !Truthy(impressions)
    ensures m.NotANumber? <==> Truthy(impressions) && cost.NaN?
    ensures Truthy(impressions) && cost.Finite? ==>
              IsToFixed2Of(m, cost.val / impressions.val * 1000.0)
  {
    if Truthy(impressions) then ToFixed2(Times(Div(cost, impressions), 1000.0)) else Sentinel
  }

  /** Return on ad spend, conversions per unit of cost, guarded by
      `cost && conversions`: both must be truthy, so it is never NaN. */
  function Roas(cost: Num, conversions: Num): (m: Metric)
    ensures m.Sentinel? <==> !(Truthy(cost) && Truthy(conversions))
    ensures !m.NotANumber?
    ensures Truthy(cost) && Truthy(conversions) ==> IsToFixed2Of(m, conversions.val / cost.val)
  {
    if Truthy(cost) && Truthy(conversions) then ToFixed2(Div(conversions, cost)) else Sentinel
  }

  function Formulas(impressions: Num, clicks: Num, cost: Num, conversions: Num): Insights {
    Insights(Ctr(impressions, clicks), Cpc(clicks, cost), Cpm(impressions, cost), Roas(cost, conversions))
  }

  /** `+text || 0`: the text's numeric value, or 0 when it is empty, blank,
      zero or not a numeral. */
  function Coerce(text: string): (n: Num)
    ensures n.Finite?
    ensures ToNumber(text).Finite? ==> n.val == ToNumber(text).val
    ensures ToNumber(text).NaN? ==> n.val == 0.0
  {
    OrZero(ToNumber(text))
  }

  /** `calcInsights` of MediaBuyingTool: every field goes through Coerce, so
      no metric is ever NaN, and a guard fires exactly when its counter reads
      as zero or is not a numeral at all. */
  function CalcInsights(d: Counters): (m: Insights)
    ensures !m.ctr.NotANumber? && !m.cpc.NotANumber? && !m.cpm.NotANumber? && !m.roas.NotANumber?
    ensures m.ctr.Sentinel? <==> !Truthy(ToNumber(d.impressions))
    ensures m.cpm.Sentinel? <==> !Truthy(ToNumber(d.impressions))
    ensures m.cpc.Sentinel? <==> !Truthy(ToNumber(d.clicks))
    ensures m.roas.Sentinel? <==> !(Truthy(ToNumber(d.cost)) && Truthy(ToNumber(d.conversions)))
  {
    Formulas(Coerce(d.impressions), Coerce(d.clicks), Coerce(d.cost), Coerce(d.conversions))
  }

  /** `calcInsights` of App: the fields go through the unary `+` alone, so a
      field that is not a numeral is NaN. NaN fails every guard, but it still
      reaches a division guarded by a different counter. */
  function CalcInsightsAsWritten(d: Counters): (m: Insights)
    ensures m.ctr.NotANumber? <==> Truthy(ToNumber(d.impressions)) && ToNumber(d.clicks).NaN?
    ensures m.cpc.NotANumber? <==> Truthy(ToNumber(d.clicks)) && ToNumber(d.cost).NaN?
    ensures m.cpm.NotANumber? <==> Truthy(ToNumber(d.impressions)) && ToNumber(d.cost).NaN?
    ensures !m.roas.NotANumber?
    ensures m.ctr.Sentinel? <==> !Truthy(ToNumber(d.impressions))
    ensures m.cpm.Sentinel? <==> !Truthy(ToNumber(d.impressions))
    ensures m.cpc.Sentinel? <==> !Truthy(ToNumber(d.clicks))
    ensures m.roas.Sentinel? <==> !(Truthy(ToNumber(d.cost)) && Truthy(ToNumber(d.conversions)))
  {
    Formulas(ToNumber(d.impressions), ToNumber(d.clicks), ToNumber(d.cost), ToNumber(d.conversions))
  }

  /** The values behind MediaBuyingTool's metrics: wherever a guard passes,
      the metric is the two-decimal rendering of its ratio of the coerced
      counters. */
  lemma CalcInsightsValues(d: Counters)
    ensures var m := CalcInsights(d);
      && (Truthy(ToNumber(d.impressions)) ==>
            IsToFixed2Of(m.ctr, Coerce(d.clicks).val / Coerce(d.impressions).val * 100.0))
      && (Truthy(ToNumber(d.clicks)) ==>
            IsToFixed2Of(m.cpc, Coerce(d.cost).val / Coerce(d.clicks).val))
      && (Truthy(ToNumber(d.impressions)) ==>
            IsToFixed2Of(m.cpm, Coerce(d.cost).val / Coerce(d.impressions).val * 1000.0))
      && (Truthy(ToNumber(d.cost)) && Truthy(ToNumber(d.conversions)) ==>
            IsToFixed2Of(m.roas, Coerce(d.conversions).val / Coerce(d.cost).val))
  {
  }

  /** The values behind App's metrics: wherever a guard passes and the
      dividend is a number, the metric is the two-decimal rendering of its
      ratio of the converted counters. */
  lemma CalcInsightsAsWrittenValues(d: Counters)
    ensures var m := CalcInsightsAsWritten(d);
      && (Truthy(ToNumber(d.impressions)) && ToNumber(d.clicks).Finite? ==>
            IsToFixed2Of(m.ctr, ToNumber(d.clicks).val / ToNumber(d.impressions).val * 100.0))
      && (Truthy(ToNumber(d.clicks)) && ToNumber(d.cost).Finite? ==>
            IsToFixed2Of(m.cpc, ToNumber(d.cost).val / ToNumber(d.clicks).val))
      && (Truthy(ToNumber(d.impressions)) && ToNumber(d.cost).Finite? ==>
            IsToFixed2Of(m.cpm, ToNumber(d.cost).val / ToNumber(d.impressions).val * 1000.0))
      && (Truthy(ToNumber(d.cost)) && Truthy(ToNumber(d.conversions)) ==>
            IsToFixed2Of(m.roas, ToNumber(d.conversions).val / ToNumber(d.cost).val))
  {
  }

  /** With every field blank each guard fires in both components. */
  lemma BlankFormIsAllSentinel()
    ensures CalcInsights(Blank) == Insights(Sentinel, Sentinel, Sentinel, Sentinel)
    ensures CalcInsightsAsWritten(Blank) == Insights(Sentinel, Sentinel, Sentinel, Sentinel)
  {
  }

  /** Text that is not a numeral counts as zero: whatever the other fields
      hold, a non-numeral impressions field makes ctr and cpm the sentinel, a
      non-numeral clicks field makes cpc the sentinel, and a non-numeral cost
      or conversions field makes roas the sentinel. */
  lemma NonNumeralCountsAsZero(d: Counters)
    ensures ToNumber(d.impressions).NaN? ==> CalcInsights(d).ctr.Sentinel? && CalcInsights(d).cpm.Sentinel?
    ensures ToNumber(d.clicks).NaN? ==> CalcInsights(d).cpc.Sentinel?
    ensures ToNumber(d.cost).NaN? || ToNumber(d.conversions).NaN? ==> CalcInsights(d).roas.Sentinel?
  {
  }

  /** A negative count is not rejected: it passes the guards and its ratios
      are computed and rendered with a minus sign where the ratio is below
      zero. */
  lemma NegativeImpressionsPassGuard(d: Counters)
    requires ToNumber(d.impressions).Finite? && ToNumber(d.impressions).val < 0.0
    ensures CalcInsights(d).ctr.Fixed? && CalcInsights(d).cpm.Fixed?
    ensures ToNumber(d.clicks).Finite? && ToNumber(d.clicks).val > 0.0 ==> CalcInsights(d).ctr.negative
  {
    var i, k := Coerce(d.impressions), Coerce(d.clicks);
    var m := Formulas(i, k, Coerce(d.cost), Coerce(d.conversions));
    assert m == CalcInsights(d);
    if k.val > 0.0 {
      NegativeRatio(k.val, i.val);
    }
  }

  lemma NegativeRatio(a: real, b: real)
    requires a > 0.0 && b < 0.0
    ensures a / b * 100.0 < 0.0
  {
    assert a / b < 0.0 by {
      assert (a / b) * b == a;
    }
  }

  /** When every field holds a numeral (or is blank) the two components
      compute the same metrics: the `|| 0` only changes a NaN field. */
  lemma ComponentsAgreeOnNumerals(d: Counters)
    requires ToNumber(d.impressions).Finite? && ToNumber(d.clicks).Finite?
    requires ToNumber(d.cost).Finite? && ToNumber(d.conversions).Finite?
    ensures CalcInsightsAsWritten(d) == CalcInsights(d)
  {
    CoerceKeepsNumerals(d.impressions);
    CoerceKeepsNumerals(d.clicks);
    CoerceKeepsNumerals(d.cost);
    CoerceKeepsNumerals(d.conversions);
  }

  lemma CoerceKeepsNumerals(text: string)
    requires ToNumber(text).Finite?
    ensures Coerce(text) == ToNumber(text)
  {
  }

  /** The worked example: 1000 impressions, 20 clicks, cost 50 and 5
      conversions give ctr "2.00", cpc "2.50", cpm "50.00" and roas "0.10". */
  lemma WorkedExample(reach: string)
    ensures var m := CalcInsights(Counters(reach, "1000", "20", "5", "50"));
      && Render(m.ctr) == "2.00" && Render(m.cpc) == "2.50"
      && Render(m.cpm) == "50.00" && Render(m.roas) == "0.10"
  {
    WorkedInsights(reach);
    WorkedRendering();
  }

  lemma WorkedInsights(reach: string)
    ensures CalcInsights(Counters(reach, "1000", "20", "5", "50"))
            == Insights(Fixed(false, 200), Fixed(false, 250), Fixed(false, 5000), Fixed(false, 10))
  {
    ReadsThousand();
    ReadsTwenty();
    ReadsFifty();
    ReadsFive();
    WorkedFromReadings(Counters(reach, "1000", "20", "5", "50"));
  }

  lemma WorkedFromReadings(d: Counters)
    requires Coerce(d.impressions) == Finite(1000.0) && Coerce(d.clicks) == Finite(20.0)
    requires Coerce(d.cost) == Finite(50.0) && Coerce(d.conversions) == Finite(5.0)
    ensures CalcInsights(d)
            == Insights(Fixed(false, 200), Fixed(false, 250), Fixed(false, 5000), Fixed(false, 10))
  {
    WorkedFormulas();
  }

  lemma ReadsThousand()
    ensures Coerce("1000") == Finite(1000.0) && ToNumber("1000") == Finite(1000.0)
  {
    ReadsAs(1000, "1000");
  }

  lemma ReadsTwenty()
    ensures Coerce("20") == Finite(20.0) && ToNumber("20") == Finite(20.0)
  {
    ReadsAs(20, "20");
  }

  lemma ReadsFifty()
    ensures Coerce("50") == Finite(50.0) && ToNumber("50") == Finite(50.0)
  {
    ReadsAs(50, "50");
  }

  lemma ReadsFive()
    ensures Coerce("5") == Finite(5.0) && ToNumber("5") == Finite(5.0)
  {
    ReadsAs(5, "5");
  }

  lemma ReadsTen()
    ensures Coerce("10") == Finite(10.0) && ToNumber("10") == Finite(10.0)
  {
    ReadsAs(10, "10");
  }

  lemma WorkedRendering()
    ensures Render(Fixed(false, 200)) == "2.00"
    ensures Render(Fixed(false, 250)) == "2.50"
    ensures Render(Fixed(false, 5000)) == "50.00"
    ensures Render(Fixed(false, 10)) == "0.10"
  {
    RendersTwo();
    RendersFifty();
    RendersTenth();
  }

  lemma RendersTwo()
    ensures Render(Fixed(false, 200)) == "2.00"
    ensures Render(Fixed(false, 250)) == "2.50"
  {
    assert NatToString(2) == "2";
  }

  lemma RendersFifty()
    ensures Render(Fixed(false, 5000)) == "50.00"
  {
    assert NatToString(50) == "50";
  }

  lemma RendersTenth()
    ensures Render(Fixed(false, 10)) == "0.10"
  {
    assert NatToString(0) == "0";
  }

  lemma ReadsAs(n: nat, text: string)
    requires NatToString(n) == text
    ensures ToNumber(text) == Finite(n as real)
    ensures Coerce(text) == Finite(n as real)
  {
    NatToStringToNumber(n);
  }

  lemma WorkedFormulas()
    ensures Formulas(Finite(1000.0), Finite(20.0), Finite(50.0), Finite(5.0))
            == Insights(Fixed(false, 200), Fixed(false, 250), Fixed(false, 5000), Fixed(false, 10))
  {
    assert Ctr(Finite(1000.0), Finite(20.0)) == Fixed(false, 200) by {
      NearestHundredthsExact(200);
    }
    assert Cpc(Finite(20.0), Finite(50.0)) == Fixed(false, 250) by {
      NearestHundredthsExact(250);
    }
    assert Cpm(Finite(1000.0), Finite(50.0)) == Fixed(false, 5000) by {
      NearestHundredthsExact(5000);
    }
    assert Roas(Finite(50.0), Finite(5.0)) == Fixed(false, 10) by {
      NearestHundredthsExact(10);
    }
  }
}

=== FILE: campaign_data.dfy ===
/** The campaign form: five raw counters kept as the text the user typed. */
module CampaignData {

  /** The `name` of each input of the form. */
  datatype Field = Reach | Impressions | Clicks | Conversions | Cost

  /** The form state `data`; every field holds text, not a number. */
  datatype Counters = Counters(
    reach: string,
    impressions: string,
    clicks: string,
    conversions: string,
    cost: string)

  /** The initial form: every field blank. */
  const Blank := Counters("", "", "", "", "")

  /** The text currently held by the named field. */
  function Get(d: Counters, f: Field): string {
    match f
    case Reach => d.reach
    case Impressions => d.impressions
    case Clicks => d.clicks
    case Conversions => d.conversions
    case Cost => d.cost
  }

  /** `handleChange`: a copy of the form with the named field replaced by the
      text typed into it. */
  function HandleChange(d: Counters, f: Field, text: string): (r: Counters)
    ensures Get(r, f) == text
    ensures forall g :: g != f ==> Get(r, g) == Get(d, g)
  {
    match f
    case Reach => d.(reach := text)
    case Impressions => d.(impressions := text)
    case Clicks => d.(clicks := text)
    case Conversions => d.(conversions := text)
    case Cost => d.(cost := text)
  }

  /** Two forms that agree on every field are the same form, so the two
      clauses of HandleChange determine its result completely. */
  lemma FieldsDetermineForm(d: Counters, e: Counters)
    requires forall f :: Get(d, f) == Get(e, f)
    ensures d == e
  {
    assert Get(d, Reach) == Get(e, Reach);
    assert Get(d, Impressions) == Get(e, Impressions);
    assert Get(d, Clicks) == Get(e, Clicks);
    assert Get(d, Conversions) == Get(e, Conversions);
    assert Get(d, Cost) == Get(e, Cost);
  }

  /** Typing the text a field already holds changes nothing, and of two
      edits to the same field only the later one is visible. */
  lemma HandleChangeLastWriteWins(d: Counters, f: Field, a: string, b: string)
    ensures HandleChange(d, f, Get(d, f)) == d
    ensures HandleChange(HandleChange(d, f, a), f, b) == HandleChange(d, f, b)
  {
  }

  /** Edits to two different fields commute. */
  lemma HandleChangeCommutes(d: Counters, f: Field, g: Field, a: string, b: string)
    requires f != g
    ensures HandleChange(HandleChange(d, f, a), g, b) == HandleChange(HandleChange(d, g, b), f, a)
  {
  }
}

=== FILE: classifier.dfy ===
/** `performanceColor`: the colour a displayed metric is shown in. */
module Classifier {
  import opened JsNumber
  import opened Metric
  import opened CampaignData
  import opened Calculator
  import opened Advice

  /** `text-gray-500`, `text-green-600` and `text-red-600`. */
  datatype Shade = Neutral | Good | Bad

  /** The displayed text is compared with the sentinel string first, so only
      the sentinel is neutral; a computed "0.00" is judged against the
      threshold like any other value, and "NaN" fails every comparison. */
  function PerformanceColor(value: Metric, threshold: real, goodHigher: bool): (s: Shade)
    ensures s == Neutral <==> value.Sentinel?
    ensures !value.Sentinel? && goodHigher ==>
              (s == Good <==> value.Fixed? && FixedValue(value) >= threshold)
    ensures !value.Sentinel? && !goodHigher ==>
              (s == Good <==> value.Fixed? && FixedValue(value) <= threshold)
  {
    RenderIsZeroText(value);
    if Render(value) == "0" then Neutral
    else
      var v := Reading(value);
      if goodHigher then (if AtLeast(v, threshold) then Good else Bad)
      else (if AtMost(v, threshold) then Good else Bad)
  }

  datatype Shades = Shades(ctr: Shade, cpc: Shade, cpm: Shade, roas: Shade)

  /** The four uses on the analysis view: ctr and roas are good from 1
      upwards, cpc is good up to 1 and cpm up to 30. */
  function AnalysisShades(m: Insights): (s: Shades)
    ensures s.ctr == Neutral <==> m.ctr.Sentinel?
    ensures s.cpc == Neutral <==> m.cpc.Sentinel?
    ensures s.cpm == Neutral <==> m.cpm.Sentinel?
    ensures s.roas == Neutral <==> m.roas.Sentinel?
    ensures !m.ctr.Sentinel? ==> (s.ctr == Good <==> m.ctr.Fixed? && FixedValue(m.ctr) >= 1.0)
    ensures !m.cpc.Sentinel? ==> (s.cpc == Good <==> m.cpc.Fixed? && FixedValue(m.cpc) <= 1.0)
    ensures !m.cpm.Sentinel? ==> (s.cpm == Good <==> m.cpm.Fixed? && FixedValue(m.cpm) <= 30.0)
    ensures !m.roas.Sentinel? ==> (s.roas == Good <==> m.roas.Fixed? && FixedValue(m.roas) >= 1.0)
  {
    Shades(
      PerformanceColor(m.ctr, 1.0, true),
      PerformanceColor(m.cpc, 1.0, false),
      PerformanceColor(m.cpm, 30.0, false),
      PerformanceColor(m.roas, 1.0, true))
  }

  /** In MediaBuyingTool the colours and the advice agree: a metric that is
      not the sentinel is shown in red exactly when its rule gives advice. */
  lemma ShadesAgreeWithAdvice(d: Counters)
    ensures var m := CalcInsights(d);
      var s := AnalysisShades(m);
      var recs := GetRecommendation(m);
      && (!m.ctr.Sentinel? ==> (s.ctr == Bad <==> CtrWeak in recs))
      && (!m.cpc.Sentinel? ==> (s.cpc == Bad <==> CpcHigh in recs))
      && (!m.cpm.Sentinel? ==> (s.cpm == Bad <==> CpmHigh in recs))
      && (!m.roas.Sentinel? ==> (s.roas == Bad <==> RoasWeak in recs))
  {
  }
}

=== FILE: comparison.dfy ===
/** The session of MediaBuyingTool as a state machine: the form data and the
    one-slot comparison snapshot, driven by field edits and the "save for
    comparison" and "clear comparison" buttons. */
module Comparison {
  import opened CampaignData
  import opened Calculator
  import opened Metric

  datatype Option<T> = None | Some(value: T)

  /** `data` and `comparisonData`; the metrics shown are always recomputed
      from `data`, only the snapshot is stored. */
  datatype Session = Session(data: Counters, comparison: Option<Insights>)

  datatype Event = Edit(field: Field, text: string) | Save | Clear

  /** The initial state, before a stored form is restored: blank form, no
      snapshot. Only a first-ever session keeps this form; a later one
      replaces it with the form restored from storage, while the snapshot,
      which is never stored, still starts empty. */
  const Start := Session(Blank, None)

  /** One user action. Saving copies the metrics current at that moment,
      overwriting any earlier snapshot; clearing empties the slot; an edit
      changes one field and leaves the snapshot as it was, so the snapshot
      keeps the old metrics while the displayed ones follow the form. */
  function Step(s: Session, e: Event): (r: Session)
    ensures e.Save? ==> r.comparison == Some(CalcInsights(s.data)) && r.data == s.data
    ensures e.Clear? ==> r.comparison == None && r.data == s.data
    ensures e.Edit? ==> r.comparison == s.comparison
    ensures e.Edit? ==> Get(r.data, e.field) == e.text
    ensures e.Edit? ==> forall g :: g != e.field ==> Get(r.data, g) == Get(s.data, g)
  {
    match e
    case Edit(f, text) => s.(data := HandleChange(s.data, f, text))
    case Save => s.(comparison := Some(CalcInsights(s.data)))
    case Clear => s.(comparison := None)
  }

  /** The session after a sequence of actions, applied from first to last. */
  function Run(s: Session, events: seq<Event>): Session
    decreases |events|
  {
    if events == [] then s else Step(Run(s, events[..|events| - 1]), events[|events| - 1])
  }

  /** `k` is the position of the last save or clear in `events`. */
  ghost predicate LastSlotAction(events: seq<Event>, k: int) {
    && 0 <= k < |events|
    && !events[k].Edit?
    && forall j :: k < j < |events| ==> events[j].Edit?
  }

  /** Edits alone never touch the snapshot. */
  lemma {:induction false} EditsKeepSnapshot(s: Session, events: seq<Event>)
    requires forall j :: 0 <= j < |events| ==> events[j].Edit?
    ensures Run(s, events).comparison == s.comparison
    decreases |events|
  {
    if events != [] {
      EditsKeepSnapshot(s, events[..|events| - 1]);
    }
  }

  /** The snapshot after any sequence of actions is decided by the last save
      or clear alone: a final clear leaves the slot empty, and a final save
      leaves exactly the metrics of the form as it was at that save, however
      the form was edited afterwards. */
  lemma {:induction false} SnapshotIsLastSave(s: Session, events: seq<Event>, k: int)
    requires LastSlotAction(events, k)
    ensures Run(s, events).comparison ==
              (if events[k].Save? then Some(CalcInsights(Run(s, events[..k]).data)) else None)
    decreases |events|
  {
    var n := |events| - 1;
    var prefix := events[..n];
    assert Run(s, events) == Step(Run(s, prefix), events[n]);
    if k < n {
      assert LastSlotAction(prefix, k);
      SnapshotIsLastSave(s, prefix, k);
      assert prefix[..k] == events[..k];
      assert events[n].Edit?;
    } else {
      assert events[..k] == prefix;
    }
  }

  /** The last text typed into field `f` among `events`, or the text `f`
      held before them when none of them edits it. */
  function LastText(before: Counters, events: seq<Event>, f: Field): string
    decreases |events|
  {
    if events == [] then Get(before, f)
    else
      var e := events[|events| - 1];
      if e.Edit? && e.field == f then e.text else LastText(before, events[..|events| - 1], f)
  }

  /** Every field of the form after a sequence of actions holds the last
      text typed into it, and a field nobody edited keeps its text; saving
      and clearing never touch the form. */
  lemma {:induction false} FormIsLastEdits(s: Session, events: seq<Event>, f: Field)
    ensures Get(Run(s, events).data, f) == LastText(s.data, events, f)
    ensures (forall j :: 0 <= j < |events| ==> !(events[j].Edit? && events[j].field == f)) ==>
              Get(Run(s, events).data, f) == Get(s.data, f)
    decreases |events|
  {
    if events != [] {
      var n := |events| - 1;
      FormIsLastEdits(s, events[..n], f);
      if forall j :: 0 <= j < |events| ==> !(events[j].Edit? && events[j].field == f) {
        assert forall j :: 0 <= j < n ==> events[..n][j] == events[j];
      }
    }
  }

  /** Whatever form a session starts from, the initial one or one restored
      from storage, its comparison slot stays empty until the first save,
      however the form is edited. Saving the untouched initial form stores
      four sentinels. */
  lemma InitialStateHasNoSnapshot(restored: Counters, events: seq<Event>)
    requires forall j :: 0 <= j < |events| ==> events[j].Edit?
    ensures Run(Start, events).comparison == None
    ensures Run(Session(restored, None), events).comparison == None
    ensures Step(Start, Save).comparison == Some(Insights(Sentinel, Sentinel, Sentinel, Sentinel))
  {
    EditsKeepSnapshot(Start, events);
    EditsKeepSnapshot(Session(restored, None), events);
    BlankFormIsAllSentinel();
  }

  /** Saving twice in a row is the same as saving once, and clearing after
      a save forgets it. */
  lemma SaveIdempotentClearForgets(s: Session)
    ensures Step(Step(s, Save), Save) == Step(s, Save)
    ensures Step(Step(s, Save), Clear) == Step(s, Clear)
  {
  }
}

=== FILE: decimal.dfy ===
/** Decimal text: rendering whole numbers as digit strings and JavaScript's
    string-to-number conversion (the unary `+` applied to an input field's
    text), restricted to plain decimal numerals. */
module Decimal {
  import opened JsNumber

  predicate IsDigit(c: char) {
    '0' <= c <= '9'
  }

  function DigitValue(c: char): (d: nat)
    requires IsDigit(c)
    ensures d < 10
  {
    c as int - '0' as int
  }

  function DigitChar(d: nat): (c: char)
    requires d < 10
    ensures IsDigit(c) && DigitValue(c) == d
  {
    ('0' as int + d) as char
  }

  predicate AllDigits(s: string) {
    forall i :: 0 <= i < |s| ==> IsDigit(s[i])
  }

  /** The value of a digit string read in base ten; the empty string is 0. */
  function DigitsValue(s: string): nat
    requires AllDigits(s)
  {
    if s == [] then 0 else DigitsValue(s[..|s| - 1]) * 10 + DigitValue(s[|s| - 1])
  }

  /** The shortest base-ten numeral of `n`. */
  function NatToString(n: nat): (s: string)
    ensures |s| >= 1 && AllDigits(s)
    ensures |s| > 1 ==> s[0] != '0'
  {
    if n < 10 then [DigitChar(n)] else NatToString(n / 10) + [DigitChar(n % 10)]
  }

  function Pow10(k: nat): (p: nat)
    ensures p >= 1
  {
    if k == 0 then 1 else 10 * Pow10(k - 1)
  }

  /** `x` divided by ten `k` times: `k` fractional digits worth `x` in all. */
  function Shift(x: real, k: nat): (r: real)
    ensures x >= 0.0 ==> r >= 0.0
  {
    if k == 0 then x else Shift(x, k - 1) / 10.0
  }

  /** Shifting by `k` places divides by the `k`-th power of ten. */
  lemma {:induction false} ShiftDividesByPow10(x: real, k: nat)
    ensures Shift(x, k) * (Pow10(k) as real) == x
  {
    if k > 0 {
      ShiftDividesByPow10(x, k - 1);
      var y := Shift(x, k - 1);
      assert Shift(x, k) * (Pow10(k) as real) == (y / 10.0) * (10.0 * (Pow10(k - 1) as real));
    }
  }

  /** The characters JavaScript strips from both ends of a string before
      converting it to a number: white space and line terminators. */
  predicate IsSpace(c: char) {
    c == '\t' || c == '\n' || c == '\U{000B}' || c == '\U{000C}' || c == '\r'
    || c == ' ' || c == '\U{00A0}' || c == '\U{1680}' || '\U{2000}' <= c <= '\U{200A}'
    || c == '\U{2028}' || c == '\U{2029}' || c == '\U{202F}' || c == '\U{205F}'
    || c == '\U{3000}' || c == '\U{FEFF}'
  }

  function TrimStart(s: string): string {
    if s != [] && IsSpace(s[0]) then TrimStart(s[1..]) else s
  }

  function TrimEnd(s: string): string {
    if s != [] && IsSpace(s[|s| - 1]) then TrimEnd(s[..|s| - 1]) else s
  }

  /** TrimStart removes exactly the white space at the front of a string. */
  lemma {:induction false} TrimStartRemovesLeadingSpace(s: string)
    ensures var t := TrimStart(s);
      && |t| <= |s| && t == s[|s| - |t|..]
      && (forall i :: 0 <= i < |s| - |t| ==> IsSpace(s[i]))
      && (t != [] ==> !IsSpace(t[0]))
    decreases |s|
  {
    if s != [] && IsSpace(s[0]) {
      TrimStartRemovesLeadingSpace(s[1..]);
    }
  }

  /** TrimEnd removes exactly the white space at the end of a string. */
  lemma {:induction false} TrimEndRemovesTrailingSpace(s: string)
    ensures var t := TrimEnd(s);
      && |t| <= |s| && t == s[..|t|]
      && (forall i :: |t| <= i < |s| ==> IsSpace(s[i]))
      && (t != [] ==> !IsSpace(t[|t| - 1]))
    decreases |s|
  {
    if s != [] && IsSpace(s[|s| - 1]) {
      TrimEndRemovesTrailingSpace(s[..|s| - 1]);
    }
  }

  function Trim(s: string): string {
    TrimEnd(TrimStart(s))
  }

  /** The length of the run of digits at the front of `s`. */
  function DigitRun(s: string): (i: nat)
    ensures i <= |s| && AllDigits(s[..i])
    ensures i < |s| ==> !IsDigit(s[i])
  {
    if s != [] && IsDigit(s[0]) then
      var k := DigitRun(s[1..]);
      assert s[..k + 1] == [s[0]] + s[1..][..k];
      k + 1
    else
      0
  }

  /** An unsigned decimal numeral: `digits`, `digits.`, `digits.digits` or
      `.digits`; anything else is NaN. */
  function ParseUnsigned(t: string): (n: Num)
    ensures n.Finite? ==> n.val >= 0.0
  {
    var i := DigitRun(t);
    var whole := DigitsValue(t[..i]) as real;
    if i == |t| then
      if i > 0 then Finite(whole) else NaN
    else if t[i] == '.' && AllDigits(t[i + 1..]) && (i > 0 || i + 1 < |t|) then
      var frac := t[i + 1..];
      Finite(whole + Shift(DigitsValue(frac) as real, |frac|))
    else
      NaN
  }

  /** The unary `+` on a string: surrounding white space is ignored, the
      empty string is 0, a leading `+` or `-` sign is allowed, and text that
      is not a numeral is NaN. */
  function ToNumber(s: string): (r: Num)
    ensures Trim(s) == [] ==> r == Finite(0.0)
  {
    var t := Trim(s);
    if t == [] then Finite(0.0)
    else if t[0] == '-' then Negate(ParseUnsigned(t[1..]))
    else if t[0] == '+' then ParseUnsigned(t[1..])
    else ParseUnsigned(t)
  }

  /** Text whose first character after the white space is neither a digit,
      a sign nor a point is not a numeral. */
  lemma NonNumeralStartIsNaN(s: string)
    requires var t := Trim(s);
      t != [] && !IsDigit(t[0]) && t[0] != '+' && t[0] != '-' && t[0] != '.'
    ensures ToNumber(s).NaN?
  {
    assert DigitRun(Trim(s)) == 0;
  }

  /** Empty or blank text converts to 0, not to NaN. */
  lemma BlankTextIsZero(s: string)
    requires forall i :: 0 <= i < |s| ==> IsSpace(s[i])
    ensures ToNumber(s) == Finite(0.0)
  {
    AllSpaceTrimsToEmpty(s);
  }

  lemma {:induction false} AllSpaceTrimsToEmpty(s: string)
    requires forall i :: 0 <= i < |s| ==> IsSpace(s[i])
    ensures TrimStart(s) == []
    decreases |s|
  {
    if s != [] {
      AllSpaceTrimsToEmpty(s[1..]);
    }
  }

  /** Reading back a numeral yields the number it was made from. */
  lemma {:induction false} DigitsValueOfNatToString(n: nat)
    ensures DigitsValue(NatToString(n)) == n
  {
    var s := NatToString(n);
    if n >= 10 {
      DigitsValueOfNatToString(n / 10);
      assert s[..|s| - 1] == NatToString(n / 10);
    }
  }

  /** Conversely, a numeral without a leading zero is the shortest numeral of
      its value. */
  lemma {:induction false} NatToStringOfDigitsValue(s: string)
    requires |s| >= 1 && AllDigits(s)
    requires |s| > 1 ==> s[0] != '0'
    ensures NatToString(DigitsValue(s)) == s
  {
    var n := DigitsValue(s);
    if |s| == 1 {
      assert s == [s[0]];
      assert DigitsValue(s) == DigitValue(s[0]);
    } else {
      var p := s[..|s| - 1];
      assert p[0] == s[0];
      DigitsNonZeroLead(p);
      assert n / 10 == DigitsValue(p) && n % 10 == DigitValue(s[|s| - 1]);
      NatToStringOfDigitsValue(p);
      assert s == p + [s[|s| - 1]];
    }
  }

  /** A numeral of two or more digits that starts with a non-zero digit is at
      least 10. */
  lemma {:induction false} DigitsNonZeroLead(s: string)
    requires |s| >= 1 && AllDigits(s) && s[0] != '0'
    ensures DigitsValue(s) >= Pow10(|s| - 1)
  {
    if |s| > 1 {
      var p := s[..|s| - 1];
      assert p[0] == s[0];
      DigitsNonZeroLead(p);
    } else {
      assert DigitsValue(s) == DigitValue(s[0]);
    }
  }

  /** The digit run of a numeral followed by text that starts with a
      non-digit is exactly the numeral. */
  lemma {:induction false} DigitRunOfNumeral(a: string, rest: string)
    requires AllDigits(a)
    requires rest != [] ==> !IsDigit(rest[0])
    ensures DigitRun(a + rest) == |a|
  {
    if a != [] {
      assert (a + rest)[1..] == a[1..] + rest;
      DigitRunOfNumeral(a[1..], rest);
    } else {
      assert a + rest == rest;
    }
  }

  /** Text with no white space at either end is left alone by Trim. */
  lemma TrimUntouched(s: string)
    requires s != [] && !IsSpace(s[0]) && !IsSpace(s[|s| - 1])
    ensures Trim(s) == s
  {
  }

  /** Every non-empty digit string, leading zeros included, converts to the
      whole number it denotes. */
  lemma DigitsToNumber(s: string)
    requires s != [] && AllDigits(s)
    ensures ToNumber(s) == Finite(DigitsValue(s) as real)
  {
    TrimUntouched(s);
    DigitRunOfNumeral(s, []);
    assert s + [] == s;
    assert s[..|s|] == s;
  }

  /** Leading zeros are read as decimal digits, not as an octal prefix. */
  lemma LeadingZerosIgnored()
    ensures ToNumber("007") == Finite(7.0)
  {
    DigitsToNumber("007");
    assert "007"[..2][..1][..0] == [];
  }

  /* How the unary `+` reads text that is not blank: white space around
     the text is dropped, then a sign, then an unsigned numeral. Together the
     Parse lemmas below cover every string, split at the end of its leading
     run of digits. */

  /** Leading white space is skipped up to the first other character. */
  lemma {:induction false} TrimStartSkipsSpace(w: string, t: string)
    requires forall i :: 0 <= i < |w| ==> IsSpace(w[i])
    requires t == [] || !IsSpace(t[0])
    ensures TrimStart(w + t) == t
    decreases |w|
  {
    if w == [] {
      assert w + t == t;
    } else {
      assert (w + t)[1..] == w[1..] + t;
      TrimStartSkipsSpace(w[1..], t);
    }
  }

  /** Trailing white space is skipped back to the last other character. */
  lemma {:induction false} TrimEndSkipsSpace(t: string, w: string)
    requires forall i :: 0 <= i < |w| ==> IsSpace(w[i])
    requires t == [] || !IsSpace(t[|t| - 1])
    ensures TrimEnd(t + w) == t
    decreases |w|
  {
    if w == [] {
      assert t + w == t;
    } else {
      var n := |w| - 1;
      assert (t + w)[..|t + w| - 1] == t + w[..n];
      TrimEndSkipsSpace(t, w[..n]);
    }
  }

  /** White space around a numeral does not change its value: " 12 " is 12. */
  lemma PaddingIgnored(before: string, t: string, after: string)
    requires forall i :: 0 <= i < |before| ==> IsSpace(before[i])
    requires forall i :: 0 <= i < |after| ==> IsSpace(after[i])
    requires t != [] && !IsSpace(t[0]) && !IsSpace(t[|t| - 1])
    ensures ToNumber(before + t + after) == ToNumber(t)
  {
    assert before + t + after == before + (t + after);
    TrimStartSkipsSpace(before, t + after);
    TrimEndSkipsSpace(t, after);
    TrimUntouched(t);
  }

  /** A leading `+` is dropped and a leading `-` negates what follows; a
      sign with nothing after it is NaN. */
  lemma SignRead(t: string)
    requires t == [] || !IsSpace(t[|t| - 1])
    ensures ToNumber("+" + t) == ParseUnsigned(t)
    ensures ToNumber("-" + t) == Negate(ParseUnsigned(t))
  {
    var plus, minus := "+" + t, "-" + t;
    assert plus[|plus| - 1] == if t == [] then '+' else t[|t| - 1];
    assert minus[|minus| - 1] == if t == [] then '-' else t[|t| - 1];
    TrimUntouched(plus);
    TrimUntouched(minus);
    assert plus[1..] == t && minus[1..] == t;
  }

  /** Text that starts with a digit or a point is read as an unsigned
      numeral. */
  lemma UnsignedRead(t: string)
    requires t != [] && (IsDigit(t[0]) || t[0] == '.') && !IsSpace(t[|t| - 1])
    ensures ToNumber(t) == ParseUnsigned(t)
  {
    TrimUntouched(t);
  }

  /** A run of digits alone is its value; nothing at all is NaN. */
  lemma ParseWhole(a: string)
    requires AllDigits(a)
    ensures ParseUnsigned(a) == if a == [] then NaN else Finite(DigitsValue(a) as real)
  {
    DigitRunOfNumeral(a, []);
    assert a + [] == a;
    assert a[..|a|] == a;
  }

  /** Digits, a point and digits: "2.5", ".5" and "5." are numbers, the
      lone point is NaN. */
  lemma ParseFraction(a: string, b: string)
    requires AllDigits(a) && AllDigits(b)
    ensures a == [] && b == [] ==> ParseUnsigned(a + "." + b) == NaN
    ensures a != [] || b != [] ==>
              ParseUnsigned(a + "." + b) == Finite(DigitsValue(a) as real + Shift(DigitsValue(b) as real, |b|))
  {
    var t := a + "." + b;
    PointSplit(a, b);
    if a == [] && b == [] {
      assert |t| == 1;
    } else {
      assert |a| > 0 || |a| + 1 < |t|;
      var i := DigitRun(t);
      ParseAtPoint(t, i);
      assert DigitsValue(t[..i]) == DigitsValue(a);
      assert DigitsValue(t[i + 1..]) == DigitsValue(b);
      assert |t[i + 1..]| == |b|;
    }
  }

  lemma ParseAtPoint(t: string, i: nat)
    requires i == DigitRun(t) && i < |t| && t[i] == '.' && AllDigits(t[i + 1..])
    requires i > 0 || i + 1 < |t|
    ensures ParseUnsigned(t) ==
              Finite(DigitsValue(t[..i]) as real + Shift(DigitsValue(t[i + 1..]) as real, |t[i + 1..]|))
  {
  }

  lemma PointSplit(a: string, b: string)
    requires AllDigits(a)
    ensures var t := a + "." + b;
      && DigitRun(t) == |a| && t[..|a|] == a && t[|a|] == '.' && t[|a| + 1..] == b
  {
    var t := a + "." + b;
    assert t == a + ("." + b);
    DigitRunOfNumeral(a, "." + b);
  }

  /** Anything but digits after the point makes the text NaN: "1.2.3". */
  lemma ParseJunkAfterPoint(a: string, f: string)
    requires AllDigits(a) && !AllDigits(f)
    ensures ParseUnsigned(a + "." + f).NaN?
  {
    PointSplit(a, f);
  }

  /** A character other than a digit or a point after the leading digits
      makes the text NaN: "12abc". */
  lemma ParseJunkAfterDigits(a: string, c: char, rest: string)
    requires AllDigits(a) && !IsDigit(c) && c != '.'
    ensures ParseUnsigned(a + [c] + rest).NaN?
  {
    var t := a + [c] + rest;
    assert t == a + ([c] + rest);
    DigitRunOfNumeral(a, [c] + rest);
    assert t[|a|] == c;
  }

  /** Typed text the form may hold: a signed whole number, a decimal
      fraction, a padded number and text that only starts like a number. */
  lemma TypedExamples()
    ensures ToNumber("-5") == Finite(-5.0)
    ensures ToNumber("2.5") == Finite(2.5)
    ensures ToNumber(" 12 ") == Finite(12.0)
    ensures ToNumber("12abc") == NaN
    ensures ToNumber("1.2.3") == NaN
  {
    MinusFive();
    TwoAndAHalf();
    PaddedTwelve();
    TwelveAbc();
    TwoPoints();
  }

  lemma TwoPoints()
    ensures ToNumber("1.2.3") == NaN
  {
    UnsignedRead("1.2.3");
    assert !AllDigits("2.3") by {
      assert !IsDigit("2.3"[1]);
    }
    ParseJunkAfterPoint("1", "2.3");
    assert "1" + "." + "2.3" == "1.2.3";
  }

  lemma MinusFive()
    ensures ToNumber("-5") == Finite(-5.0)
  {
    SignRead("5");
    ParseWhole("5");
    assert "-" + "5" == "-5";
  }

  lemma TwoAndAHalf()
    ensures ToNumber("2.5") == Finite(2.5)
  {
    UnsignedRead("2.5");
    ParseFraction("2", "5");
    assert "2" + "." + "5" == "2.5";
    assert Shift(5.0, 1) == 0.5;
  }

  lemma PaddedTwelve()
    ensures ToNumber(" 12 ") == Finite(12.0)
  {
    PaddingIgnored(" ", "12", " ");
    assert " " + "12" + " " == " 12 ";
    DigitsToNumber("12");
    assert DigitsValue("12") == 12 by {
      assert "12"[..1] == "1";
    }
  }

  lemma TwelveAbc()
    ensures ToNumber("12abc") == NaN
  {
    UnsignedRead("12abc");
    ParseJunkAfterDigits("12", 'a', "bc");
    assert "12" + ['a'] + "bc" == "12abc";
  }

  /** In particular the shortest numeral of every whole number converts to
      that number. */
  lemma NatToStringToNumber(n: nat)
    ensures ToNumber(NatToString(n)) == Finite(n as real)
  {
    DigitsToNumber(NatToString(n));
    DigitsValueOfNatToString(n);
  }
}

=== FILE: jsnumber.dfy ===
/** The part of JavaScript's number semantics the campaign calculator relies
    on: a value is either a finite number, read here as an exact real, or NaN.
    Infinity is not modelled. In JavaScript it can still arise: the unary `+`
    of a numeral with more than 309 digits is Infinity, which passes every
    truthiness guard, and a finite ratio can overflow once multiplied. */
module JsNumber {

  datatype Num = Finite(val: real) | NaN

  /** JavaScript truthiness of a number: 0 (and -0) and NaN are falsy,
      everything else is truthy. This is the test behind `x ? a : b`,
      `a && b` and `x || 0`. */
  predicate Truthy(n: Num) {
    n.Finite? && n.val != 0.0
  }

  /** `n || 0`: a falsy number is replaced by 0, a truthy one is kept. */
  function OrZero(n: Num): (r: Num)
    ensures r.Finite?
    ensures Truthy(r) <==> Truthy(n)
    ensures n.Finite? ==> r.val == n.val
    ensures n.NaN? ==> r.val == 0.0
  {
    if Truthy(n) then n else Finite(0.0)
  }

  /** Unary minus; NaN stays NaN. */
  function Negate(n: Num): (r: Num)
    ensures r.NaN? <==> n.NaN?
    ensures r.Finite? ==> r.val + n.val == 0.0
  {
    match n
    case NaN => NaN
    case Finite(x) => Finite(-x)
  }

  /** `a / b` for a divisor that passed a truthiness guard; NaN propagates. */
  function Div(a: Num, b: Num): (r: Num)
    requires Truthy(b)
    ensures r.NaN? <==> a.NaN?
  {
    match a
    case NaN => NaN
    case Finite(x) => Finite(x / b.val)
  }

  /** `a * k` for a number literal `k`; NaN propagates. */
  function Times(a: Num, k: real): (r: Num)
    ensures r.NaN? <==> a.NaN?
    ensures r.Finite? ==> r.val == a.val * k
  {
    match a
    case NaN => NaN
    case Finite(x) => Finite(x * k)
  }

  /* The four comparisons with a number literal. Every comparison that
     involves NaN is false, so none of these is the negation of another. */

  predicate Less(a: Num, t: real) {
    a.Finite? && a.val < t
  }

  predicate Greater(a: Num, t: real) {
    a.Finite? && a.val > t
  }

  predicate AtLeast(a: Num, t: real) {
    a.Finite? && a.val >= t
  }

  predicate AtMost(a: Num, t: real) {
    a.Finite? && a.val <= t
  }

  /** The step of `toFixed(2)` on a magnitude: the whole number of hundredths
      `n` for which `n / 100 - y` is as close to zero as possible, taking the
      larger `n` when two are equally close. */
  function NearestHundredths(y: real): (n: nat)
    requires y >= 0.0
    ensures (n as real) - 0.5 <= 100.0 * y < (n as real) + 0.5
  {
    (100.0 * y + 0.5).Floor
  }

  /** Two hundredth counts that both satisfy the rounding condition are equal,
      so the condition of NearestHundredths characterises its result. */
  lemma NearestHundredthsUnique(y: real, n: nat, n': nat)
    requires y >= 0.0
    requires (n as real) - 0.5 <= 100.0 * y < (n as real) + 0.5
    requires (n' as real) - 0.5 <= 100.0 * y < (n' as real) + 0.5
    ensures n == n'
  {
  }

  /** A magnitude that is already a whole number of hundredths is kept exactly. */
  lemma NearestHundredthsExact(k: nat)
    ensures NearestHundredths((k as real) / 100.0) == k
  {
  }
}

=== FILE: metric.dfy ===
/** The text a derived metric takes: the sentinel "0" written when a
    zero-guard fires, or the result of `toFixed(2)` on the computed ratio. */
module Metric {
  import opened JsNumber
  import opened Decimal

  /** `Sentinel` is the literal string "0". `Fixed(negative, cents)` is the
      output of `toFixed(2)` on a finite number: an optional minus sign
      (present exactly when the number was below zero, so "-0.00" is
      possible) and `cents` hundredths written with two fractional digits.
      `NotANumber` is `toFixed(2)` on NaN, the string "NaN". */
  datatype Metric = Sentinel | Fixed(negative: bool, cents: nat) | NotANumber

  /** The signed value a `Fixed` metric denotes. */
  function FixedValue(m: Metric): real
    requires m.Fixed?
  {
    if m.negative then -((m.cents as real) / 100.0) else (m.cents as real) / 100.0
  }

  /** `m` is what `toFixed(2)` writes for the finite number `x`: the sign of
      `x` is kept and the magnitude is the nearest number of hundredths,
      ties going to the larger magnitude. */
  ghost predicate IsToFixed2Of(m: Metric, x: real) {
    var y := if x < 0.0 then -x else x;
    && m.Fixed?
    && m.negative == (x < 0.0)
    && (m.cents as real) - 0.5 <= 100.0 * y < (m.cents as real) + 0.5
  }

  /** `x.toFixed(2)`. */
  function ToFixed2(x: Num): (m: Metric)
    ensures x.NaN? <==> m.NotANumber?
    ensures x.Finite? ==> IsToFixed2Of(m, x.val)
    ensures !m.Sentinel?
  {
    match x
    case NaN => NotANumber
    case Finite(v) =>
      if v < 0.0 then Fixed(true, NearestHundredths(-v)) else Fixed(false, NearestHundredths(v))
  }

  /** At most one metric is the two-decimal rendering of a given number. */
  lemma ToFixed2Unique(m: Metric, m': Metric, x: real)
    requires IsToFixed2Of(m, x) && IsToFixed2Of(m', x)
    ensures m == m'
  {
    var y := if x < 0.0 then -x else x;
    NearestHundredthsUnique(y, m.cents, m'.cents);
  }

  /** The rendered value is within half a hundredth of the number. */
  lemma ToFixed2Error(x: real)
    ensures var v := FixedValue(ToFixed2(Finite(x)));
      -0.005 <= v - x <= 0.005
  {
  }

  /** A number that is a whole number of hundredths renders exactly. */
  lemma ToFixed2Exact(k: int)
    ensures var m := ToFixed2(Finite((k as real) / 100.0));
      m.Fixed? && FixedValue(m) == (k as real) / 100.0
  {
    if k < 0 {
      NearestHundredthsExact(-k);
      assert -((k as real) / 100.0) == ((-k) as real) / 100.0;
    } else {
      NearestHundredthsExact(k);
    }
  }

  /** The exact string the metric is displayed as. A `toFixed(2)` result is
      an optional minus sign, the integer digits without a leading zero, a
      point and exactly two fractional digits. */
  function Render(m: Metric): (r: string)
    ensures m.Fixed? ==> |r| >= 4 && r[|r| - 3] == '.' && AllDigits(r[|r| - 2..])
    ensures m.Fixed? ==> (r[0] == '-' <==> m.negative)
    ensures m.Fixed? ==>
              var w := r[(if m.negative then 1 else 0)..|r| - 3];
              |w| >= 1 && AllDigits(w) && (|w| > 1 ==> w[0] != '0')
  {
    match m
    case Sentinel => "0"
    case NotANumber => "NaN"
    case Fixed(neg, c) =>
      var sign := if neg then "-" else "";
      SignedMagnitude(sign, c);
      sign + Magnitude(c)
  }

  lemma SignedMagnitude(sign: string, c: nat)
    requires sign == [] || sign == "-"
    ensures var r := sign + Magnitude(c);
      && |r| >= 4 && r[|r| - 3] == '.' && AllDigits(r[|r| - 2..])
      && (r[0] == '-' <==> sign != [])
      && r[|sign|..|r| - 3] == NatToString(c / 100)
  {
    var whole := NatToString(c / 100);
    var frac := [DigitChar((c % 100) / 10), DigitChar(c % 10)];
    var r := sign + Magnitude(c);
    assert r == sign + whole + "." + frac;
    assert r[|r| - 2..] == frac;
    assert r[|r| - 3] == '.';
    assert r[|sign|..|r| - 3] == whole;
    assert r[0] == if sign == [] then whole[0] else '-';
  }

  /** `c` hundredths written with two fractional digits, without a sign. */
  function Magnitude(c: nat): string {
    NatToString(c / 100) + "." + [DigitChar((c % 100) / 10), DigitChar(c % 10)]
  }

  /** The number the displayed string stands for: 0 for the sentinel, the
      rounded value for a `Fixed` metric and NaN for "NaN". The advice rules
      and the classifier apply `parseFloat` to the displayed string;
      ReadingOfRender proves that the unary `+` (ToNumber) gives this value,
      and on the strings Render produces `parseFloat` and the unary `+`
      agree, a fact about JavaScript outside this model. */
  function Reading(m: Metric): (r: Num)
    ensures r.NaN? <==> m.NotANumber?
    ensures r == Finite(0.0) <==> m.Sentinel? || (m.Fixed? && m.cents == 0)
  {
    match m
    case Sentinel => Finite(0.0)
    case NotANumber => NaN
    case Fixed(_, _) => Finite(FixedValue(m))
  }

  /** Only the sentinel is displayed as the bare string "0": `toFixed(2)`
      always writes a decimal point, so a computed zero shows as "0.00". */
  lemma RenderIsZeroText(m: Metric)
    ensures Render(m) == "0" <==> m.Sentinel?
  {
    if m.Fixed? {
      var s := Render(m);
      var sign: string := if m.negative then "-" else "";
      var whole := NatToString(m.cents / 100);
      assert s == sign + Magnitude(m.cents);
      assert s[|sign| + |whole|] == '.';
    }
  }

  /** Converting the displayed string back with the unary `+` gives the
      metric's reading, so rules that compare `parseFloat` of the displayed
      string may be stated on readings (on these strings `parseFloat` and the
      unary `+` agree in JavaScript; the model has no `parseFloat` of its
      own). */
  lemma ReadingOfRender(m: Metric)
    ensures ToNumber(Render(m)) == Reading(m)
  {
    match m
    case Sentinel => ReadingOfSentinel();
    case NotANumber =>
      assert Trim("NaN") == "NaN" by { TrimUntouched("NaN"); }
    case Fixed(_, _) => ReadingOfFixed(m);
  }

  lemma ReadingOfSentinel()
    ensures ToNumber("0") == Finite(0.0)
  {
    NatToStringToNumber(0);
    assert NatToString(0) == "0";
  }

  lemma ReadingOfFixed(m: Metric)
    requires m.Fixed?
    ensures ToNumber(Render(m)) == Finite(FixedValue(m))
  {
    MagnitudeParses(m.cents);
    SignedNumeral(Magnitude(m.cents), m.negative, (m.cents as real) / 100.0);
  }

  lemma MagnitudeParses(c: nat)
    ensures var body := Magnitude(c);
      body != [] && IsDigit(body[0]) && !IsSpace(body[|body| - 1])
    ensures ParseUnsigned(Magnitude(c)) == Finite((c as real) / 100.0)
  {
    var whole := NatToString(c / 100);
    var frac := [DigitChar((c % 100) / 10), DigitChar(c % 10)];
    var body := Magnitude(c);
    assert body == whole + "." + frac;
    assert body[0] == whole[0];
    assert body[|body| - 1] == DigitChar(c % 10);
    UnsignedOfFixed(whole, frac, c / 100, c % 100);
    HundredthsSplit(c);
  }

  lemma HundredthsSplit(c: nat)
    ensures (c / 100) as real + ((c % 100) as real) / 100.0 == (c as real) / 100.0
  {
    var q, r := c / 100, c % 100;
    assert c == q * 100 + r;
    assert (c as real) == (q as real) * 100.0 + (r as real);
  }

  /** A numeral that starts with a digit and does not end in white space
      converts to its unsigned value, and to the negated value behind a
      minus sign. */
  lemma SignedNumeral(body: string, negative: bool, v: real)
    requires body != [] && IsDigit(body[0]) && !IsSpace(body[|body| - 1])
    requires ParseUnsigned(body) == Finite(v)
    ensures ToNumber((if negative then "-" else "") + body) == Finite(if negative then -v else v)
  {
    var t := (if negative then "-" else "") + body;
    assert t[|t| - 1] == body[|body| - 1];
    TrimUntouched(t);
    if negative {
      assert t[1..] == body;
    } else {
      assert t == body;
    }
  }

  /** The unsigned part of a rendered `Fixed` metric parses to its value. */
  lemma UnsignedOfFixed(whole: string, frac: string, q: nat, r: nat)
    requires whole == NatToString(q) && r < 100
    requires frac == [DigitChar(r / 10), DigitChar(r % 10)]
    ensures ParseUnsigned(whole + "." + frac) == Finite(q as real + (r as real) / 100.0)
  {
    var t := whole + "." + frac;
    assert t == whole + ("." + frac);
    DigitRunOfNumeral(whole, "." + frac);
    var i := DigitRun(t);
    assert i == |whole|;
    assert t[..i] == whole;
    assert t[i] == '.';
    assert t[i + 1..] == frac;
    DigitsValueOfNatToString(q);
    TwoDigits(frac, r);
    assert |frac| == 2;
    assert Shift(r as real, 1) == (r as real) / 10.0;
    assert Shift(r as real, 2) == (r as real) / 100.0;
  }

  lemma TwoDigits(frac: string, r: nat)
    requires r < 100
    requires frac == [DigitChar(r / 10), DigitChar(r % 10)]
    ensures AllDigits(frac) && DigitsValue(frac) == r
  {
    assert frac[..1] == [DigitChar(r / 10)];
    assert frac[..1][..0] == [];
    assert DigitsValue(frac[..1]) == r / 10;
    assert DigitsValue(frac) == (r / 10) * 10 + r % 10;
  }
}
